=== FILE: README.md ===
# Load generator and Flask proxy: a verified model

This project models the two pieces of sequential logic in a small demo
of blocking versus non-blocking request relaying.

- **The Flask proxy** (`flask_app/flask_app.py`). Two POST handlers,
  `/call-tornado` (blocking `requests` client) and `/call-tornado-async`
  (aiohttp client), read an `endpoint` form field, default it to `/`,
  prepend a `/` when it lacks one, append it to `TORNADO_BASE_URL`, call
  the downstream service once and turn the outcome into a JSON reply:
  HTTP 200 with `success: true` and the downstream status passed through
  when any response came back, otherwise 503 for a connection error, 504
  for a timeout and 500 for anything else.
- **The load generator** (`utility_scripts/load_test.py`). `main`
  validates `[sync|async] <rate> [duration]`; the `LoadTester`
  constructor picks the proxy route and computes `rate * duration`
  requests; `run_load_test` sizes the thread pool and submits ids
  1, 2, ... second by second; `make_request` builds one result record per
  request; `print_summary` sorts the records by id, splits them into
  successful and failed, and reports the success rate and the
  minimum/mean/maximum duration of successful requests and the slow ones.

Modules, one per component:

| file | module | models |
|---|---|---|
| `basics.dfy` | `Basics` | `Option`, `Result`, `StartsWith` |
| `proxy.dfy` | `Proxy` | endpoint shaping, URL construction, outcome → reply |
| `load_config.dfy` | `LoadConfig` | `main`'s argument checks, the constructor, the thread-pool cap |
| `issuance.dfy` | `Issuance` | the nested per-second id loop |
| `records.dfy` | `Records` | the result record of `make_request` |
| `summary.dfy` | `Summary` | `print_summary`'s sorting, split and statistics |
| `run.dfy` | `Run` | facts about a whole run that cross the modules |

The HTTP calls are parameters: in the proxy a total function from the
request the handler makes (URL and timeout) to what came back (a status
and body, or an exception described by the exception classes it belongs
to); in the load generator a function from request id to what the POST
did. Clock readings are real-valued parameters, so durations are reals.
Python's `int()` is a parameter `string -> Option<int>`. The records
reach the summary in completion order, which the model leaves arbitrary:
any sequence of them, or any reordering of the issued ones.

`load_test.py` has one mode: `rate` requests in each of `duration`
seconds. It reports the success rate as a percentage in [0, 100].

## Model

| member | source | states |
|---|---|---|
| `Proxy.Normalize` | flask_app/flask_app.py:24-26 | the normalised endpoint starts with `/`, keeps the original endpoint as its suffix and is at most one character longer |
| `Proxy.NormalizeIdempotent` | flask_app/flask_app.py:25-26 | an endpoint already starting with `/` is left unchanged, so normalising twice equals normalising once |
| `Proxy.NormalizePrepends` | flask_app/flask_app.py:25-26 | an endpoint without a leading `/` becomes exactly `/` followed by it; no other change is ever made |
| `Proxy.MissingEndpointCallsRoot` | flask_app/flask_app.py:21-29 | a form without `endpoint` makes either handler call the base URL followed by `/` |
| `Proxy.TargetUrl` | flask_app/flask_app.py:28-29 | the called URL has the base URL as a prefix, the normalised endpoint as the rest, and a `/` right after the base |
| `Proxy.TargetUrlDeterminesPath` | flask_app/flask_app.py:29 | for one base URL, two endpoints give the same URL if and only if they normalise to the same path |
| `Proxy.PlanCall` | flask_app/flask_app.py:28-30 | the downstream request goes to the URL built from the form's endpoint, with a positive timeout |
| `Proxy.ReplyFor` | flask_app/flask_app.py:32-55 | a received response gives HTTP 200, `success` true, the downstream status and text passed through and the URL called. An exception gives `success` false and no status. The first except clause that matches decides the rest: 503 with the could-not-connect message for a connection error, else 504 with the timed-out message for a timeout, else 500 with `Unexpected error: ` followed by the exception's own text |
| `Proxy.Handle` | flask_app/flask_app.py:18-55 | the reply is exactly what the reply mapping gives for the planned URL and the downstream outcome. So the handler succeeds exactly when a response came back, and then reports the URL built from the form. Otherwise it answers 503 with the could-not-connect message for a connection error, else 504 with the timed-out message for a timeout, else 500 with `Unexpected error: ` and the exception text (lines 39-55 and 79-95) |
| `Proxy.HandlersAgree` | flask_app/flask_app.py:57-95 | the blocking and the aiohttp handler call the same URL with timeouts of 30 s and 5 s, and when the downstream outcome depends on the URL alone they give identical replies |
| `Proxy.DownstreamErrorIsProxySuccess` | flask_app/flask_app.py:32-37 | any downstream response, error statuses included, becomes HTTP 200 with `success` true and the downstream code inside |
| `Proxy.PlainExceptionIs500` | flask_app/tests/test_flask_app.py:35-42 | a blocking client that always raises a plain `Exception("Connection failed")` yields 500, `success` false, and the error `Unexpected error: ` followed by the exception text |
| `Proxy.ConnectTimeoutIs503` | flask_app/flask_app.py:39-49 | an exception that is both a connection error and a timeout is caught by the first clause: 503 |
| `Proxy.BaseUrl` | flask_app/flask_app.py:10 | the base URL is `TORNADO_BASE_URL` when the environment sets it and `http://localhost:8888` otherwise |
| `Proxy.FormEndpoint` | flask_app/flask_app.py:22 | the endpoint is the form's `endpoint` field when present and `/` when absent (the aiohttp handler reads it the same way, line 61) |
| `Proxy.TimeoutOf` | flask_app/flask_app.py:30 | the client timeout is positive: 30 s exactly for the blocking handler and 5 s exactly for the aiohttp one (line 69), so the blocking handler waits longer |
| `Proxy.UnsetEnvironmentCallsLocalService` | flask_app/flask_app.py:10-29 | with `TORNADO_BASE_URL` unset, either handler calls `http://localhost:8888` followed by the normalised endpoint |
| `LoadConfig.ParseArgs` | utility_scripts/load_test.py:188-223 | fewer than three argv entries is the usage error; an accepted configuration has a valid endpoint type, the parsed rate, and the parsed duration or the default 10, both positive |
| `LoadConfig.ParseArgsAcceptsExactly` | utility_scripts/load_test.py:202-223 | argv is accepted if and only if it has at least three entries, a `sync`/`async` type, an integer rate above 0 and, when present, an integer duration above 0 |
| `LoadConfig.ParseArgsRejections` | utility_scripts/load_test.py:189-223 | each rejection in `main`'s order: bad endpoint type, non-integer rate, non-integer duration, then a rate or a duration that is zero or negative; every rejection exits with status 1 |
| `LoadConfig.ExitCode` | utility_scripts/load_test.py:188-223 | `main` exits with status 1 exactly when the arguments are rejected, and a run is started otherwise |
| `LoadConfig.EndpointPath` | utility_scripts/load_test.py:28-34 | a route is selected exactly for `sync` and `async`, and it starts with `/`; any other type is the `ValueError` |
| `LoadConfig.NewLoadTester` | utility_scripts/load_test.py:19-34 | the constructor succeeds exactly for `sync`/`async`. It keeps the endpoint type, rate, duration and base URL it was given. The URL is the base URL followed by `/call-tornado` or `/call-tornado-async`, and the total is rate times duration |
| `LoadConfig.UrlIdentifiesEndpointType` | utility_scripts/load_test.py:29-32 | the two endpoint types give different URLs, so the URL identifies the type |
| `LoadConfig.AcceptedArgsBuildTester` | utility_scripts/load_test.py:221-226 | arguments `main` accepts never make the constructor raise, and the run has at least one request |
| `LoadConfig.MaxWorkers` | utility_scripts/load_test.py:105-106 | the pool size is the smaller of twice the rate and 5000: never above either, equal to one of them, and at least 1 when the rate is at least 1 |
| `Issuance.IssueIds` | utility_scripts/load_test.py:110-119 | the nested loop runs once per second; in second `s` it submits `rate` ids, the k-th being `s * rate + k + 1`; the counter ends at `rate * duration + 1` |
| `Issuance.FlattenSchedule` | utility_scripts/load_test.py:111-119 | the per-second batches, concatenated, are exactly the ids 1 .. seconds × rate |
| `Issuance.IdsDenseAndUnique` | utility_scripts/load_test.py:111-119 | the submitted ids are strictly increasing, hence unique, and are exactly the integers 1 .. total |
| `Issuance.IssueAll` | utility_scripts/load_test.py:111-119 | for non-negative rate and duration the run submits ids 1 .. rate × duration in order and the counter ends one past the last |
| `Records.MakeRecord` | utility_scripts/load_test.py:41-79 | a response gives a record with its status code and `success` true iff the status is 200; a request exception gives no status code, `success` false and its text as `error`; any other exception gives no record; id, duration and offset come from the inputs |
| `Records.MakeRecordRoundTrip` | utility_scripts/load_test.py:56-79 | the call outcome can be read back from the record it produced |
| `Records.ErrorStatusRecord` | utility_scripts/load_test.py:56-62 | a non-200 response is a failed record that still carries its status code and no error text |
| `Records.FailureRecord` | utility_scripts/load_test.py:72-79 | a request exception is a failed record with no status code and the exception's text |
| `Summary.InsertById` | utility_scripts/load_test.py:146 | inserting a record adds exactly that record (as a multiset) and introduces nothing else |
| `Summary.InsertKeepsSorted` | utility_scripts/load_test.py:146 | inserting into an id-sorted sequence keeps it sorted by id |
| `Summary.SortById` | utility_scripts/load_test.py:146 | the sorted results are ordered by id and are a permutation of the collected records |
| `Summary.SortedPermutationUnique` | utility_scripts/load_test.py:146 | two id-sorted orderings of the same records with distinct ids are identical |
| `Summary.SuccessfulOf` | utility_scripts/load_test.py:150 | a record is in the successful list iff it was collected and is successful |
| `Summary.FailedOf` | utility_scripts/load_test.py:151 | a record is in the failed list iff it was collected and is not successful |
| `Summary.SplitPartitions` | utility_scripts/load_test.py:150-151 | the successful and failed lists together are the collected records as a multiset, so their sizes sum to the total |
| `Summary.SuccessRate` | utility_scripts/load_test.py:158 | the rate times the total equals 100 times the successful count, i.e. `successful/total*100`; it lies in [0, 100], and is 100 iff every request succeeded and 0 iff none did |
| `Summary.MinOf` | utility_scripts/load_test.py:163 | the minimum is one of the durations and no duration is smaller |
| `Summary.MaxOf` | utility_scripts/load_test.py:164 | the maximum is one of the durations and no duration is larger |
| `Summary.Durations` | utility_scripts/load_test.py:161 | the durations list has one entry per record it is given (the summary gives it the successful ones), the i-th being that record's `duration` |
| `Summary.Mean` | utility_scripts/load_test.py:162 | the mean, multiplied by the number of durations, gives back their sum |
| `Summary.SumBounds` | utility_scripts/load_test.py:162 | when every duration lies in [lo, hi], their sum lies in [n·lo, n·hi] |
| `Summary.MeanWithinRange` | utility_scripts/load_test.py:160-164 | the mean of the successful durations lies between their minimum and maximum |
| `Summary.SlowOf` | utility_scripts/load_test.py:172-174 | a record is slow iff it is among the successful ones and took more than 5.0 seconds, and it appears in the slow list exactly as often as among the successful ones, which fixes `len(slow_requests)` |
| `Summary.TimesOf` | utility_scripts/load_test.py:160-174 | over a non-empty successful list: the average is the mean of the successful durations; min ≤ avg ≤ max; every successful duration lies in [min, max]; min and max are attained; the slow list is the slow-record filter of the successful records |
| `Summary.Summarize` | utility_scripts/load_test.py:134-174 | no summary exactly for an empty collection, so the rate is never divided by zero. Otherwise: the records are sorted by id and permuted; the successful and failed lists together are the collected records as a multiset, each record in the list its outcome selects; the rate is `SuccessRate` of the successful count over the collected count; timing statistics exist iff some request succeeded, and then they are `TimesOf` the successful records (so min ≤ avg ≤ max) |
| `Summary.SuccessRateExtremes` | utility_scripts/load_test.py:150-158 | the reported rate is 100 iff every collected record is successful and 0 iff none is |
| `Summary.SummaryIgnoresCompletionOrder` | utility_scripts/load_test.py:137-151 | with distinct ids, any two completion orders of the same records give the same summary |
| `Run.RecordsFor` | utility_scripts/load_test.py:41-82 | the workers produce at most one record per submitted id. Every record is the one `make_request` builds for an id in the list. Every id whose worker did not die of a non-request exception has its record present, whatever happened to the other workers. Distinct ids give records with distinct ids. When no worker was lost there is exactly one record per id, in submission order, and it is `make_request`'s record for that id |
| `Run.CompleteRunIssuesDenseIds` | utility_scripts/load_test.py:108-119 | when every worker recorded a result, the records for the submitted ids 1 .. N are N records carrying ids 1 .. N in order |
| `Run.CompleteRunReportsEveryId` | utility_scripts/load_test.py:108-146 | in a run of N requests where every worker recorded a result, whatever the completion order, the summary counts N and lists ids 1 .. N in order |
| `Run.IssueForArgs` | utility_scripts/load_test.py:221-226 | for arguments `main` accepts, the constructed tester's rate and duration drive the issuance loop, and the ids submitted are exactly 1 .. `total_requests` of that tester, at least one |
| `Run.LoadTestFormCallsRoot` | utility_scripts/load_test.py:45-49 | the load generator's form `{endpoint: /}` makes the proxy call its base URL followed by `/` |
| `Run.ProxiedSuccessMeansDownstreamAnswered` | utility_scripts/load_test.py:56-62 | through the proxy, a request counts as successful iff the downstream service returned any response, whatever its status |

## Left out

- Real HTTP: `requests.post`/`requests.get`, the aiohttp session and the Tornado service are foreign I/O; their outcomes are parameters.
- Concurrency: the thread pool, the thread-safe queue and out-of-order completion; the collected records are an arbitrary sequence.
- Wall-clock behaviour: the per-second `time.sleep` rate limiting, the fixed 5-second drain and `total_time`; the clock readings behind `duration` and `time_since_start` are parameters.
- All printed output, the emoji analysis text and float formatting (`:.2f`, `:.1f`); durations and the rate are exact reals, so floating-point rounding is not modelled.
- Python's `int()` parsing rules; it is the parameter `parse`.
- The `index` and `health` routes of the proxy and the browser script: they render pages and hold no logic of the core.
- The thread pool's own `ValueError` for a non-positive `max_workers`: library behaviour, unreachable from `main`, which only passes positive rates.
- Exceptions raised by the proxy handlers outside the downstream call (form parsing, `jsonify`): the model lets only the downstream call raise.
- Summary.SortById: the stability of Python's sort is not stated; the ids of one run are distinct, so stability has no visible effect there.
- Issuance.IssueAll: requires a non-negative rate and duration. For negative values Python's `range` is empty while the constructor's `total_requests` is still the product; `Issuance.IssueIds` follows `range` for every integer, and `main` only lets positive values through.
- LoadConfig.NewLoadTester: takes the duration as a required argument. The constructor's default `duration_seconds=10` is not modelled, because `main` always passes the duration. The default that `main` applies when argv has no third entry is modelled in `LoadConfig.ParseArgs`.

=== FILE: basics.dfy ===
/**
 Small shared vocabulary: an optional value, a success-or-error value,
 and prefix tests on strings.
 */
module Basics {

  /** Python's `None` or a present value. */
  datatype Option<+T> = None | Some(value: T) {

    /** The present value, or `default` when absent (Python's `dict.get(k, default)` shape). */
    function GetOr(default: T): T {
      match this
      case Some(v) => v
      case None => default
    }
  }

  /** A computed value, or the error the program raises or reports instead. */
  datatype Result<+R, +E> = Success(value: R) | Failure(error: E)

  /** `p` is a prefix of `s` (Python's `s.startswith(p)`). */
  predicate StartsWith(s: string, p: string) {
    |p| <= |s| && s[..|p|] == p
  }
}

=== FILE: issuance.dfy ===
/**
 The id schedule of `run_load_test` (utility_scripts/load_test.py): for
 each second of the run, submit `requests_per_second` requests, each with
 the next value of a running counter that starts at 1. Thread-pool
 submission and the per-second sleep are left to the environment; what
 is modelled is which ids are handed out in which second.
 */
module Issuance {

  /** Python's `range(n)` has `max(n, 0)` elements. */
  function RangeLen(n: int): nat {
    if n > 0 then n else 0
  }

  /** The ids 1, 2, ..., n in order. */
  function Ids(n: nat): (ids: seq<int>)
    ensures |ids| == n
    ensures forall i :: 0 <= i < n ==> ids[i] == i + 1
  {
    if n == 0 then [] else Ids(n - 1) + [n]
  }

  /** The batches of one run concatenated in submission order. */
  function Flatten(batches: seq<seq<int>>): seq<int> {
    if |batches| == 0 then [] else Flatten(batches[..|batches| - 1]) + batches[|batches| - 1]
  }

  /** Batch `s` holds the ids of second `s`: `per` consecutive ids after the `s * per` already given. */
  ghost predicate IsSchedule(batches: seq<seq<int>>, per: nat)
  {
    forall s :: 0 <= s < |batches| ==>
      |batches[s]| == per && forall k :: 0 <= k < per ==> batches[s][k] == s * per + k + 1
  }

  /**
   The nested issuance loop. `batches[s]` lists the ids submitted during
   second `s`; `nextId` is the counter's value once the loops end.
   */
  method IssueIds(requestsPerSecond: int, durationSeconds: int) returns (batches: seq<seq<int>>, nextId: int)
    ensures |batches| == RangeLen(durationSeconds)
    ensures IsSchedule(batches, RangeLen(requestsPerSecond))
    ensures nextId == RangeLen(requestsPerSecond) * RangeLen(durationSeconds) + 1
  {
    var per := RangeLen(requestsPerSecond);
    var seconds := RangeLen(durationSeconds);
    var requestId := 1;
    batches := [];
    var second := 0;
    while second < seconds
      invariant 0 <= second <= seconds
      invariant |batches| == second
      invariant IsSchedule(batches, per)
      invariant requestId == second * per + 1
    {
      var batch: seq<int> := [];
      var k := 0;
      while k < per
        invariant 0 <= k <= per
        invariant |batch| == k
        invariant forall j :: 0 <= j < k ==> batch[j] == second * per + j + 1
        invariant requestId == second * per + k + 1
      {
        batch := batch + [requestId];
        requestId := requestId + 1;
        k := k + 1;
      }
      batches := batches + [batch];
      second := second + 1;
    }
    nextId := requestId;
  }

  /** A schedule flattens to the dense run of ids 1 .. seconds * per. */
  lemma {:induction false} FlattenSchedule(batches: seq<seq<int>>, per: nat)
    requires IsSchedule(batches, per)
    ensures Flatten(batches) == Ids(|batches| * per)
  {
    if |batches| > 0 {
      var n := |batches| - 1;
      var front := batches[..n];
      assert IsSchedule(front, per);
      FlattenSchedule(front, per);
      var flat := Flatten(batches);
      assert flat == Ids(n * per) + batches[n];
      assert |batches| * per == n * per + per;
      forall i | 0 <= i < |batches| * per
        ensures flat[i] == i + 1
      {
        if i >= n * per {
          assert flat[i] == batches[n][i - n * per];
        }
      }
    }
  }

  /** The ids 1 .. n are strictly increasing, hence unique, and are exactly the integers 1 .. n. */
  lemma IdsDenseAndUnique(n: nat)
    ensures forall i, j :: 0 <= i < j < n ==> Ids(n)[i] < Ids(n)[j]
    ensures forall v :: v in Ids(n) <==> 1 <= v <= n
  {
    var ids := Ids(n);
    forall v | 1 <= v <= n
      ensures v in ids
    {
      assert ids[v - 1] == v;
    }
  }

  /**
   What the loop submits is every id 1 .. rate * duration, each once, in
   increasing order, and the counter ends one past the last.
   */
  method IssueAll(requestsPerSecond: int, durationSeconds: int) returns (submitted: seq<int>, nextId: int)
    requires requestsPerSecond >= 0 && durationSeconds >= 0
    ensures submitted == Ids(requestsPerSecond * durationSeconds)
    ensures nextId == requestsPerSecond * durationSeconds + 1
  {
    var batches;
    batches, nextId := IssueIds(requestsPerSecond, durationSeconds);
    FlattenSchedule(batches, RangeLen(requestsPerSecond));
    submitted := Flatten(batches);
  }
}

=== FILE: load_config.dfy ===
/**
 Configuration of the load generator (utility_scripts/load_test.py):
 command-line validation in `main`, the `LoadTester` constructor's choice
 of target URL and request total, and the thread-pool size of
 `run_load_test`.

 Python's `int()` is a parameter `parse` that either yields an integer or
 fails (the `ValueError` branch).
 */
module LoadConfig {
  import opened Basics

  const SyncType: string := "sync"
  const AsyncType: string := "async"
  const SyncPath: string := "/call-tornado"
  const AsyncPath: string := "/call-tornado-async"

  /** Constructor defaults: ten seconds against the local proxy. */
  const DefaultDuration: int := 10
  const DefaultBaseUrl: string := "http://localhost:5000"

  /** Upper bound on the worker threads of one run. */
  const MaxThreads: int := 5000

  /** Why `main` exits with status 1 before any request is sent, in the order it checks. */
  datatype ArgError =
    | Usage                // fewer than two arguments after the script name
    | BadEndpointType      // first argument neither `sync` nor `async`
    | RateNotInteger       // second argument not an integer
    | DurationNotInteger   // third argument present but not an integer
    | NotPositive          // rate or duration zero or negative

  /** What `main` hands to the constructor. */
  datatype Args = Args(endpointType: string, requestsPerSecond: int, durationSeconds: int)

  /** The fields of a constructed `LoadTester` that the run uses. */
  datatype LoadTester = LoadTester(
    endpointType: string,
    requestsPerSecond: int,
    durationSeconds: int,
    baseUrl: string,
    totalRequests: int,
    url: string)

  predicate IsEndpointType(s: string) {
    s == SyncType || s == AsyncType
  }

  /** `main`'s argument checks, over the full `sys.argv` (index 0 is the script). */
  function ParseArgs(argv: seq<string>, parse: string -> Option<int>): (r: Result<Args, ArgError>)
    ensures r.Success? ==> IsEndpointType(r.value.endpointType)
                           && r.value.requestsPerSecond > 0 && r.value.durationSeconds > 0
    ensures |argv| < 3 <==> r == Failure(Usage)
    ensures r.Success? ==> r.value.endpointType == argv[1]
                           && parse(argv[2]) == Some(r.value.requestsPerSecond)
    ensures r.Success? && |argv| == 3 ==> r.value.durationSeconds == DefaultDuration
    ensures r.Success? && |argv| > 3 ==> parse(argv[3]) == Some(r.value.durationSeconds)
  {
    if |argv| < 3 then Failure(Usage)
    else if !IsEndpointType(argv[1]) then Failure(BadEndpointType)
    else
      match parse(argv[2])
      case None => Failure(RateNotInteger)
      case Some(rps) =>
        var duration :=
          if |argv| > 3 then parse(argv[3]) else Some(DefaultDuration);
        match duration
        case None => Failure(DurationNotInteger)
        case Some(d) =>
          if rps <= 0 || d <= 0 then Failure(NotPositive)
          else Success(Args(argv[1], rps, d))
  }

  /** Exit status of `main`: 1 for every argument error; 0 once a run has been started. */
  function ExitCode(r: Result<Args, ArgError>): (code: int)
    ensures code == 0 <==> r.Success?
    ensures r.Failure? ==> code == 1
  {
    match r
    case Success(_) => 0
    case Failure(_) => 1
  }

  /** The proxy route an endpoint type selects, or the constructor's `ValueError`. */
  function EndpointPath(endpointType: string): (r: Result<string, string>)
    ensures r.Success? <==> IsEndpointType(endpointType)
    ensures r.Success? ==> StartsWith(r.value, "/")
  {
    if endpointType == SyncType then Success(SyncPath)
    else if endpointType == AsyncType then Success(AsyncPath)
    else Failure("endpoint_type must be 'sync' or 'async'")
  }

  /** `LoadTester.__init__`: the URL is the base URL followed by the selected route. */
  function NewLoadTester(endpointType: string, requestsPerSecond: int, durationSeconds: int,
                         baseUrl: string): (r: Result<LoadTester, string>)
    ensures r.Success? <==> IsEndpointType(endpointType)
    ensures r.Success? ==> StartsWith(r.value.url, baseUrl)
    ensures r.Success? && endpointType == SyncType ==> r.value.url == baseUrl + "/call-tornado"
    ensures r.Success? && endpointType == AsyncType ==> r.value.url == baseUrl + "/call-tornado-async"
    ensures r.Success? ==> r.value.totalRequests == requestsPerSecond * durationSeconds
    ensures r.Success? ==> r.value.endpointType == endpointType && r.value.baseUrl == baseUrl
    ensures r.Success? ==> r.value.requestsPerSecond == requestsPerSecond
                           && r.value.durationSeconds == durationSeconds
  {
    match EndpointPath(endpointType)
    case Failure(msg) => Failure(msg)
    case Success(path) =>
      var url := baseUrl + path;
      assert url[..|baseUrl|] == baseUrl;
      Success(LoadTester(endpointType, requestsPerSecond, durationSeconds, baseUrl,
                         requestsPerSecond * durationSeconds, url))
  }

  /** Worker threads of one run: twice the rate, capped. */
  function MaxWorkers(requestsPerSecond: int): (n: int)
    ensures n <= MaxThreads && n <= 2 * requestsPerSecond
    ensures n == MaxThreads || n == 2 * requestsPerSecond
    ensures requestsPerSecond >= 1 ==> n >= 1
  {
    if 2 * requestsPerSecond < MaxThreads then 2 * requestsPerSecond else MaxThreads
  }

  /**
   `ParseArgs` accepts exactly two positive integers with a valid endpoint
   type: the success condition in both directions.
   */
  lemma ParseArgsAcceptsExactly(argv: seq<string>, parse: string -> Option<int>)
    ensures ParseArgs(argv, parse).Success? <==>
      && |argv| >= 3
      && IsEndpointType(argv[1])
      && parse(argv[2]).Some? && parse(argv[2]).value > 0
      && (|argv| > 3 ==> parse(argv[3]).Some? && parse(argv[3]).value > 0)
  {
  }

  /** Each rejection, in the order `main` checks, and its exit status 1. */
  lemma ParseArgsRejections(argv: seq<string>, parse: string -> Option<int>)
    ensures |argv| >= 3 && !IsEndpointType(argv[1]) ==> ParseArgs(argv, parse) == Failure(BadEndpointType)
    ensures |argv| >= 3 && IsEndpointType(argv[1]) && parse(argv[2]).None?
            ==> ParseArgs(argv, parse) == Failure(RateNotInteger)
    ensures |argv| > 3 && IsEndpointType(argv[1]) && parse(argv[2]).Some? && parse(argv[3]).None?
            ==> ParseArgs(argv, parse) == Failure(DurationNotInteger)
    ensures |argv| >= 3 && IsEndpointType(argv[1]) && parse(argv[2]).Some?
            && (|argv| > 3 ==> parse(argv[3]).Some?)
            && (parse(argv[2]).value <= 0 || (|argv| > 3 && parse(argv[3]).value <= 0))
            ==> ParseArgs(argv, parse) == Failure(NotPositive)
    ensures ParseArgs(argv, parse).Failure? ==> ExitCode(ParseArgs(argv, parse)) == 1
  {
  }

  /**
   Arguments that pass `main`'s checks never make the constructor raise,
   and the run it builds has `rate * duration` requests, at least one.
   */
  lemma AcceptedArgsBuildTester(argv: seq<string>, parse: string -> Option<int>)
    requires ParseArgs(argv, parse).Success?
    ensures NewLoadTester(ParseArgs(argv, parse).value.endpointType,
                          ParseArgs(argv, parse).value.requestsPerSecond,
                          ParseArgs(argv, parse).value.durationSeconds,
                          DefaultBaseUrl).Success?
    ensures var a := ParseArgs(argv, parse).value;
            NewLoadTester(a.endpointType, a.requestsPerSecond, a.durationSeconds, DefaultBaseUrl).value.totalRequests
              >= 1
  {
    var a := ParseArgs(argv, parse).value;
    assert a.requestsPerSecond * a.durationSeconds >= a.durationSeconds;
  }

  /** The two endpoint types select different routes, so the URL names the endpoint type. */
  lemma UrlIdentifiesEndpointType(t1: string, t2: string, rps: int, dur: int, base: string)
    requires NewLoadTester(t1, rps, dur, base).Success? && NewLoadTester(t2, rps, dur, base).Success?
    ensures NewLoadTester(t1, rps, dur, base).value.url == NewLoadTester(t2, rps, dur, base).value.url
            <==> t1 == t2
  {
    var u1 := NewLoadTester(t1, rps, dur, base).value.url;
    var u2 := NewLoadTester(t2, rps, dur, base).value.url;
    if t1 != t2 {
      assert |u1| != |u2|;
    }
  }
}

=== FILE: proxy.dfy ===
/**
 The Flask proxy's request shaping (flask_app/flask_app.py): the two POST
 handlers `/call-tornado` (blocking client) and `/call-tornado-async`
 (aiohttp client) read an `endpoint` form field, make it start with `/`,
 append it to the downstream base URL, call the downstream service once,
 and turn the response or the raised exception into a JSON reply with an
 HTTP status.

 The downstream call itself is a parameter: a total function from the
 request the handler makes to what came back.
 */
module Proxy {
  import opened Basics

  /** Value of `TORNADO_BASE_URL` when the environment does not set it. */
  const DefaultBaseUrl: string := "http://localhost:8888"

  /** The form field the handlers read, and its default. */
  const EndpointField: string := "endpoint"
  const RootEndpoint: string := "/"

  /** Client-side timeouts, in seconds, of the two handlers. */
  const SyncTimeoutSeconds: int := 30
  const AsyncTimeoutSeconds: int := 5

  /** Error texts of the three failure replies. */
  const ConnectMessage: string := "Could not connect to Tornado app. Make sure it's running on port 8888."
  const TimeoutMessage: string := "Request to Tornado app timed out."
  const UnexpectedPrefix: string := "Unexpected error: "

  /** Which of the two handlers serves the request. */
  datatype Handler = Sync | Async

  /**
   An exception raised by the downstream call, described by the classes it
   belongs to. For the blocking handler `isConnectionError` means "is a
   `requests.exceptions.ConnectionError`" and `isTimeout` means "is a
   `requests.exceptions.Timeout`"; for the aiohttp handler they mean
   `aiohttp.ClientConnectorError` and `asyncio.TimeoutError`. Both may hold
   at once (the requests library's `ConnectTimeout` is both). `text` is
   `str(e)`.
   */
  datatype Exc = Exc(isConnectionError: bool, isTimeout: bool, text: string)

  /** What the downstream call produced: a response, or an exception. */
  datatype Downstream = Received(status: int, body: string) | Raised(exc: Exc)

  /** The one downstream GET a handler makes. */
  datatype DownstreamRequest = DownstreamRequest(url: string, timeoutSeconds: int)

  /** The handler's reply: the HTTP status and the JSON object's fields. */
  datatype Reply = Reply(
    httpStatus: int,
    success: bool,
    statusCode: Option<int>,
    responseText: Option<string>,
    urlCalled: Option<string>,
    error: Option<string>)

  /**
   The base URL the handlers use: `TORNADO_BASE_URL` when the environment
   sets it (`env` is its value, `None` when unset), the local service otherwise.
   */
  function BaseUrl(env: Option<string>): (r: string)
    ensures env.Some? ==> r == env.value
    ensures env.None? ==> r == DefaultBaseUrl
  {
    env.GetOr(DefaultBaseUrl)
  }

  /** The `endpoint` form field, `/` when the form does not carry one. */
  function FormEndpoint(form: map<string, string>): (r: string)
    ensures EndpointField in form ==> r == form[EndpointField]
    ensures EndpointField !in form ==> r == RootEndpoint
  {
    if EndpointField in form then form[EndpointField] else RootEndpoint
  }

  /**
   Makes the endpoint start with `/` by prepending one when it does not.
   The endpoint is kept as a suffix and at most one character is added.
   */
  function Normalize(endpoint: string): (r: string)
    ensures StartsWith(r, "/") && r[0] == '/'
    ensures |endpoint| <= |r| <= |endpoint| + 1
    ensures r[|r| - |endpoint|..] == endpoint
  {
    if StartsWith(endpoint, "/") then endpoint else "/" + endpoint
  }

  /** The downstream URL: base URL followed by the normalised endpoint. */
  function TargetUrl(base: string, endpoint: string): (url: string)
    ensures StartsWith(url, base)
    ensures url[|base|..] == Normalize(endpoint)
    ensures |url| > |base| && url[|base|] == '/'
  {
    var path := Normalize(endpoint);
    var u := base + path;
    assert u[..|base|] == base;
    assert u[|base|..] == path;
    assert u[|base|] == path[0];
    u
  }

  /** Client timeout of a handler's downstream call: the blocking handler waits longer. */
  function TimeoutOf(h: Handler): (t: int)
    ensures t > 0
    ensures h == Sync <==> t == SyncTimeoutSeconds
    ensures h == Async <==> t == AsyncTimeoutSeconds
    ensures h == Sync ==> t > AsyncTimeoutSeconds
  {
    match h
    case Sync => SyncTimeoutSeconds
    case Async => AsyncTimeoutSeconds
  }

  /** The request a handler makes for a given form. */
  function PlanCall(h: Handler, base: string, form: map<string, string>): (req: DownstreamRequest)
    ensures req.url == TargetUrl(base, FormEndpoint(form))
    ensures req.timeoutSeconds > 0
  {
    DownstreamRequest(TargetUrl(base, FormEndpoint(form)), TimeoutOf(h))
  }

  /**
   Turns what came back from the downstream call to `url` into the reply.
   A received response is always a success reply with HTTP 200 that passes
   the downstream status through, whatever it is; an exception is a failure
   reply whose status is 503 for a connection error, otherwise 504 for a
   timeout, otherwise 500.
   */
  function ReplyFor(url: string, d: Downstream): (r: Reply)
    ensures r.success <==> d.Received?
    ensures r.success <==> r.httpStatus == 200
    ensures r.httpStatus in {200, 500, 503, 504}
    ensures d.Received? ==> r.statusCode == Some(d.status) && r.responseText == Some(d.body)
                            && r.urlCalled == Some(url) && r.error.None?
    ensures d.Raised? ==> r.statusCode.None? && r.responseText.None? && r.urlCalled.None? && r.error.Some?
    ensures d.Raised? && d.exc.isConnectionError ==> r.httpStatus == 503 && r.error == Some(ConnectMessage)
    ensures d.Raised? && !d.exc.isConnectionError && d.exc.isTimeout ==>
              r.httpStatus == 504 && r.error == Some(TimeoutMessage)
    ensures d.Raised? && !d.exc.isConnectionError && !d.exc.isTimeout ==>
              r.httpStatus == 500 && r.error == Some(UnexpectedPrefix + d.exc.text)
  {
    match d
    case Received(status, body) =>
      Reply(200, true, Some(status), Some(body), Some(url), None)
    case Raised(e) =>
      if e.isConnectionError then Reply(503, false, None, None, None, Some(ConnectMessage))
      else if e.isTimeout then Reply(504, false, None, None, None, Some(TimeoutMessage))
      else Reply(500, false, None, None, None, Some(UnexpectedPrefix + e.text))
  }

  /** One request to either handler, with `call` standing for the downstream service. */
  function Handle(h: Handler, base: string, form: map<string, string>,
                  call: DownstreamRequest -> Downstream): (r: Reply)
    ensures r.success ==> r.urlCalled == Some(TargetUrl(base, FormEndpoint(form)))
    ensures r.success <==> call(PlanCall(h, base, form)).Received?
    ensures r == ReplyFor(PlanCall(h, base, form).url, call(PlanCall(h, base, form)))
  {
    var req := PlanCall(h, base, form);
    ReplyFor(req.url, call(req))
  }

  /** Normalisation leaves an endpoint that already starts with `/` alone, so it is idempotent. */
  lemma NormalizeIdempotent(endpoint: string)
    ensures StartsWith(endpoint, "/") ==> Normalize(endpoint) == endpoint
    ensures Normalize(Normalize(endpoint)) == Normalize(endpoint)
  {
  }

  /** Normalisation adds exactly one `/` to an endpoint that lacks it, and nothing else. */
  lemma NormalizePrepends(endpoint: string)
    ensures !StartsWith(endpoint, "/") ==> Normalize(endpoint) == "/" + endpoint
    ensures Normalize(endpoint) == endpoint || Normalize(endpoint) == "/" + endpoint
  {
  }

  /** A form without an `endpoint` field makes the handler call the base URL's root. */
  lemma MissingEndpointCallsRoot(h: Handler, base: string, form: map<string, string>)
    requires EndpointField !in form
    ensures PlanCall(h, base, form).url == base + "/"
  {
  }

  /** With `TORNADO_BASE_URL` unset, both handlers call the local service on port 8888. */
  lemma UnsetEnvironmentCallsLocalService(h: Handler, form: map<string, string>)
    ensures PlanCall(h, BaseUrl(None), form).url == DefaultBaseUrl + Normalize(FormEndpoint(form))
    ensures StartsWith(PlanCall(h, BaseUrl(None), form).url, DefaultBaseUrl)
  {
  }

  /**
   The base URL and the normalised endpoint can be read back from the URL:
   for a fixed base, two endpoints lead to the same URL exactly when they
   normalise to the same path.
   */
  lemma TargetUrlDeterminesPath(base: string, e1: string, e2: string)
    ensures TargetUrl(base, e1) == TargetUrl(base, e2) <==> Normalize(e1) == Normalize(e2)
  {
    if TargetUrl(base, e1) == TargetUrl(base, e2) {
      assert Normalize(e1) == TargetUrl(base, e1)[|base|..];
    }
  }

  /**
   The two handlers shape the request identically and map outcomes
   identically: they differ only in the client timeout, so when the
   downstream outcome depends on the URL alone their replies are equal.
   */
  lemma HandlersAgree(base: string, form: map<string, string>, outcome: string -> Downstream)
    ensures PlanCall(Sync, base, form).url == PlanCall(Async, base, form).url
    ensures PlanCall(Sync, base, form).timeoutSeconds == 30
    ensures PlanCall(Async, base, form).timeoutSeconds == 5
    ensures Handle(Sync, base, form, (req: DownstreamRequest) => outcome(req.url))
            == Handle(Async, base, form, (req: DownstreamRequest) => outcome(req.url))
  {
  }

  /**
   A downstream error status is still reported as a successful proxy call:
   the reply has HTTP 200 and `success` true, with the downstream code inside.
   */
  lemma DownstreamErrorIsProxySuccess(h: Handler, base: string, form: map<string, string>,
                                      call: DownstreamRequest -> Downstream, status: int, body: string)
    requires call(PlanCall(h, base, form)) == Received(status, body)
    ensures Handle(h, base, form, call).httpStatus == 200
    ensures Handle(h, base, form, call).success
    ensures Handle(h, base, form, call).statusCode == Some(status)
  {
  }

  /**
   The case the proxy's unit test exercises: the blocking client raises a
   plain `Exception("Connection failed")` on every call, which is neither a
   connection error nor a timeout of the requests library, so the reply
   is 500.
   */
  lemma PlainExceptionIs500(base: string, form: map<string, string>)
    ensures var r := Handle(Sync, base, form, _ => Raised(Exc(false, false, "Connection failed")));
            r.httpStatus == 500 && !r.success && r.error == Some(UnexpectedPrefix + "Connection failed")
  {
  }

  /** An exception that is both a connection error and a timeout takes the first except clause: 503. */
  lemma ConnectTimeoutIs503(url: string, text: string)
    ensures ReplyFor(url, Raised(Exc(true, true, text))).httpStatus == 503
  {
  }
}

=== FILE: records.dfy ===
/**
 The result record `make_request` (utility_scripts/load_test.py) builds
 for one request. The POST itself is a parameter: it either returned a
 response with a status code, raised a `requests.RequestException`, or
 raised something else. Clock readings are parameters too.
 */
module Records {
  import opened Basics

  /** The status code that counts as a successful request. */
  const OkStatus: int := 200

  /** What the POST to the proxy did. */
  datatype CallResult =
    | Responded(statusCode: int)
    | RequestFailed(message: string)   // a `requests.RequestException`, with `str(e)`
    | OtherFailure                     // any other exception: it stays inside the worker's future

  /** One collected result, with the keys of `make_request`'s result dict. */
  datatype Record = Record(
    id: int,
    statusCode: Option<int>,
    duration: real,
    timeSinceStart: real,
    success: bool,
    error: Option<string>)

  /**
   The shape every record has: success exactly for status 200, and a
   missing status code exactly when an error text is present.
   */
  predicate WellFormed(r: Record) {
    && (r.success <==> r.statusCode == Some(OkStatus))
    && (r.statusCode.None? <==> r.error.Some?)
  }

  /**
   The record for request `id`, started at `requestStart`, finished at
   `requestEnd`, in a run started at `runStart`; no record when the
   exception is not a `RequestException`.
   */
  function MakeRecord(id: int, call: CallResult, requestStart: real, requestEnd: real, runStart: real): (r: Option<Record>)
    ensures r.None? <==> call.OtherFailure?
    ensures r.Some? ==> WellFormed(r.value)
    ensures r.Some? ==> r.value.id == id
                        && r.value.duration == requestEnd - requestStart
                        && r.value.timeSinceStart == requestStart - runStart
    ensures r.Some? ==> (r.value.success <==> call == Responded(OkStatus))
  {
    var duration := requestEnd - requestStart;
    var sinceStart := requestStart - runStart;
    match call
    case Responded(code) =>
      Some(Record(id, Some(code), duration, sinceStart, code == OkStatus, None))
    case RequestFailed(msg) =>
      Some(Record(id, None, duration, sinceStart, false, Some(msg)))
    case OtherFailure => None
  }

  /** Reads back from a record what the call did. */
  function CallOf(r: Record): CallResult
    requires WellFormed(r)
  {
    if r.statusCode.Some? then Responded(r.statusCode.value) else RequestFailed(r.error.value)
  }

  /** Round trip: a record keeps everything about the call that produced it. */
  lemma MakeRecordRoundTrip(id: int, call: CallResult, requestStart: real, requestEnd: real, runStart: real)
    requires !call.OtherFailure?
    ensures MakeRecord(id, call, requestStart, requestEnd, runStart).Some?
    ensures CallOf(MakeRecord(id, call, requestStart, requestEnd, runStart).value) == call
  {
  }

  /**
   A response with a status other than 200 is a failed record that still
   carries its status code and no error text.
   */
  lemma ErrorStatusRecord(id: int, code: int, requestStart: real, requestEnd: real, runStart: real)
    requires code != OkStatus
    ensures var r := MakeRecord(id, Responded(code), requestStart, requestEnd, runStart);
            r.Some? && !r.value.success && r.value.statusCode == Some(code) && r.value.error.None?
  {
  }

  /** A request exception gives a failed record with no status code and the exception's text. */
  lemma FailureRecord(id: int, msg: string, requestStart: real, requestEnd: real, runStart: real)
    ensures var r := MakeRecord(id, RequestFailed(msg), requestStart, requestEnd, runStart);
            r.Some? && !r.value.success && r.value.statusCode.None? && r.value.error == Some(msg)
  {
  }
}

=== FILE: run.dfy ===
/**
 How the pieces fit together in one run of utility_scripts/load_test.py
 against the proxy of flask_app/flask_app.py: the ids the issuance loop
 hands out, the records the workers produce for them, and the summary of
 those records collected in whatever order the requests completed.
 */
module Run {
  import opened Basics
  import opened Issuance
  import opened Records
  import opened Summary
  import Proxy
  import LoadConfig

  /** The form every request of the load tester posts. */
  const LoadTestForm: map<string, string> := map[Proxy.EndpointField := "/"]

  /** What `make_request` leaves on the queue for request `id`, if anything. */
  function RecordOf(id: int, calls: int -> CallResult, startAt: int -> real, endAt: int -> real,
                    runStart: real): Option<Record>
  {
    MakeRecord(id, calls(id), startAt(id), endAt(id), runStart)
  }

  /** No worker for these ids died of an exception other than a request exception. */
  predicate NoneLost(ids: seq<int>, calls: int -> CallResult) {
    forall i :: 0 <= i < |ids| ==> !calls(ids[i]).OtherFailure?
  }

  /**
   The records the workers put on the queue for the submitted ids, in
   submission order. `calls`, `startAt` and `endAt` give, per id, what the
   POST did and the clock readings around it. Each worker stores its own
   record independently, so one lost worker removes only its own record.
   */
  function RecordsFor(ids: seq<int>, calls: int -> CallResult, startAt: int -> real, endAt: int -> real,
                      runStart: real): (rs: seq<Record>)
    ensures |rs| <= |ids|
    ensures forall r :: r in rs ==>
              r.id in ids && RecordOf(r.id, calls, startAt, endAt, runStart) == Some(r)
    ensures forall i :: 0 <= i < |ids| && !calls(ids[i]).OtherFailure? ==>
              RecordOf(ids[i], calls, startAt, endAt, runStart).value in rs
    ensures (forall i, j :: 0 <= i < j < |ids| ==> ids[i] != ids[j]) ==> DistinctIds(rs)
    ensures NoneLost(ids, calls) ==> |rs| == |ids|
    ensures NoneLost(ids, calls) ==>
              forall i :: 0 <= i < |ids| ==> rs[i] == RecordOf(ids[i], calls, startAt, endAt, runStart).value
    ensures NoneLost(ids, calls) ==> forall i :: 0 <= i < |ids| ==> rs[i].id == ids[i]
  {
    if |ids| == 0 then []
    else
      var init := ids[..|ids| - 1];
      var id := ids[|ids| - 1];
      var front := RecordsFor(init, calls, startAt, endAt, runStart);
      var o := RecordOf(id, calls, startAt, endAt, runStart);
      var rs := if o.Some? then front + [o.value] else front;
      StepMembership(ids, init, id, front, rs, calls, startAt, endAt, runStart);
      StepDistinct(ids, init, id, front, rs, calls, startAt, endAt, runStart);
      StepComplete(ids, init, id, front, rs, calls, startAt, endAt, runStart);
      rs
  }

  /** One more id keeps "every record is its id's record" and "every kept id has its record". */
  lemma StepMembership(ids: seq<int>, init: seq<int>, id: int, front: seq<Record>, rs: seq<Record>,
                       calls: int -> CallResult, startAt: int -> real, endAt: int -> real, runStart: real)
    requires ids == init + [id]
    requires rs == if RecordOf(id, calls, startAt, endAt, runStart).Some?
                   then front + [RecordOf(id, calls, startAt, endAt, runStart).value] else front
    requires forall r :: r in front ==>
               r.id in init && RecordOf(r.id, calls, startAt, endAt, runStart) == Some(r)
    requires forall i :: 0 <= i < |init| && !calls(init[i]).OtherFailure? ==>
               RecordOf(init[i], calls, startAt, endAt, runStart).value in front
    ensures forall r :: r in rs ==>
              r.id in ids && RecordOf(r.id, calls, startAt, endAt, runStart) == Some(r)
    ensures forall i :: 0 <= i < |ids| && !calls(ids[i]).OtherFailure? ==>
              RecordOf(ids[i], calls, startAt, endAt, runStart).value in rs
  {
    forall i | 0 <= i < |ids| && !calls(ids[i]).OtherFailure?
      ensures RecordOf(ids[i], calls, startAt, endAt, runStart).value in rs
    {
      if i < |init| {
        assert ids[i] == init[i];
      }
    }
  }

  /** One more id, distinct from the earlier ones, keeps the records' ids distinct. */
  lemma StepDistinct(ids: seq<int>, init: seq<int>, id: int, front: seq<Record>, rs: seq<Record>,
                     calls: int -> CallResult, startAt: int -> real, endAt: int -> real, runStart: real)
    requires ids == init + [id]
    requires rs == if RecordOf(id, calls, startAt, endAt, runStart).Some?
                   then front + [RecordOf(id, calls, startAt, endAt, runStart).value] else front
    requires forall r :: r in front ==> r.id in init
    requires (forall i, j :: 0 <= i < j < |init| ==> init[i] != init[j]) ==> DistinctIds(front)
    ensures (forall i, j :: 0 <= i < j < |ids| ==> ids[i] != ids[j]) ==> DistinctIds(rs)
  {
    if forall i, j :: 0 <= i < j < |ids| ==> ids[i] != ids[j] {
      assert forall i, j :: 0 <= i < j < |init| ==> init[i] != init[j] by {
        assert forall i :: 0 <= i < |init| ==> init[i] == ids[i];
      }
      assert id !in init by {
        forall k | 0 <= k < |init|
          ensures init[k] != id
        {
          assert init[k] == ids[k] && id == ids[|ids| - 1];
        }
      }
      forall i, j | 0 <= i < j < |rs|
        ensures rs[i].id != rs[j].id
      {
        if j == |front| {
          assert rs[i] == front[i];
          assert front[i] in front;
        } else {
          assert rs[i] == front[i] && rs[j] == front[j];
        }
      }
    }
  }

  /** With no worker lost, one more id adds exactly its record at the end. */
  lemma StepComplete(ids: seq<int>, init: seq<int>, id: int, front: seq<Record>, rs: seq<Record>,
                     calls: int -> CallResult, startAt: int -> real, endAt: int -> real, runStart: real)
    requires ids == init + [id]
    requires rs == if RecordOf(id, calls, startAt, endAt, runStart).Some?
                   then front + [RecordOf(id, calls, startAt, endAt, runStart).value] else front
    requires |front| <= |init|
    requires NoneLost(init, calls) ==> |front| == |init|
    requires NoneLost(init, calls) ==>
               forall i :: 0 <= i < |init| ==> front[i] == RecordOf(init[i], calls, startAt, endAt, runStart).value
    ensures |rs| <= |ids|
    ensures NoneLost(ids, calls) ==> |rs| == |ids|
    ensures NoneLost(ids, calls) ==>
              forall i :: 0 <= i < |ids| ==> rs[i] == RecordOf(ids[i], calls, startAt, endAt, runStart).value
    ensures NoneLost(ids, calls) ==> forall i :: 0 <= i < |ids| ==> rs[i].id == ids[i]
  {
    if NoneLost(ids, calls) {
      assert NoneLost(init, calls) by {
        assert forall i :: 0 <= i < |init| ==> init[i] == ids[i];
      }
      assert !calls(ids[|ids| - 1]).OtherFailure?;
      forall i | 0 <= i < |ids|
        ensures rs[i] == RecordOf(ids[i], calls, startAt, endAt, runStart).value
      {
        if i < |init| {
          assert ids[i] == init[i];
        }
      }
    }
  }

  /**
   A run in which no worker died of an exception other than a request
   exception: however the completions interleave, the summary lists the
   records with ids 1 .. N in order, and counts N requests.
   */
  lemma {:induction false} CompleteRunReportsEveryId(n: nat, calls: int -> CallResult, startAt: int -> real, endAt: int -> real,
                                  runStart: real, collected: seq<Record>)
    requires n > 0
    requires forall id :: 1 <= id <= n ==> !calls(id).OtherFailure?
    requires multiset(collected) == multiset(RecordsFor(Ids(n), calls, startAt, endAt, runStart))
    ensures Summarize(collected).Some?
    ensures Summarize(collected).value.sent == n
    ensures var ordered := Summarize(collected).value.ordered;
            |ordered| == n && forall i :: 0 <= i < n ==> ordered[i].id == i + 1
  {
    var issued := RecordsFor(Ids(n), calls, startAt, endAt, runStart);
    CompleteRunIssuesDenseIds(n, calls, startAt, endAt, runStart);
    assert |collected| == n by {
      assert |collected| == |multiset(collected)|;
      assert |issued| == |multiset(issued)|;
    }
    DenseIdsAreSorted(issued);
    var ordered := Summarize(collected).value.ordered;
    SortedPermutationUnique(issued, ordered);
  }

  /** With no worker lost, the records for ids 1 .. N carry exactly those ids, in order. */
  lemma CompleteRunIssuesDenseIds(n: nat, calls: int -> CallResult, startAt: int -> real, endAt: int -> real,
                                  runStart: real)
    requires forall id :: 1 <= id <= n ==> !calls(id).OtherFailure?
    ensures var issued := RecordsFor(Ids(n), calls, startAt, endAt, runStart);
            |issued| == n && forall i :: 0 <= i < n ==> issued[i].id == i + 1
  {
    var ids := Ids(n);
    forall i | 0 <= i < |ids|
      ensures !calls(ids[i]).OtherFailure?
    {
      assert 1 <= ids[i] <= n;
    }
  }

  /** Records whose ids are 1, 2, ... in order are sorted with distinct ids. */
  lemma DenseIdsAreSorted(s: seq<Record>)
    requires forall i :: 0 <= i < |s| ==> s[i].id == i + 1
    ensures SortedById(s) && DistinctIds(s)
  {
  }

  /**
   The arguments `main` accepts give a run whose issuance loop submits
   exactly the constructor's `total_requests` ids, 1 .. total.
   */
  method IssueForArgs(argv: seq<string>, parse: string -> Option<int>) returns (submitted: seq<int>)
    requires LoadConfig.ParseArgs(argv, parse).Success?
    ensures var a := LoadConfig.ParseArgs(argv, parse).value;
            var t := LoadConfig.NewLoadTester(a.endpointType, a.requestsPerSecond, a.durationSeconds,
                                              LoadConfig.DefaultBaseUrl);
            t.Success? && submitted == Ids(t.value.totalRequests)
    ensures |submitted| > 0
  {
    var a := LoadConfig.ParseArgs(argv, parse).value;
    LoadConfig.AcceptedArgsBuildTester(argv, parse);
    var tester := LoadConfig.NewLoadTester(a.endpointType, a.requestsPerSecond, a.durationSeconds,
                                           LoadConfig.DefaultBaseUrl).value;
    var nextId;
    submitted, nextId := IssueAll(tester.requestsPerSecond, tester.durationSeconds);
  }

  /** The load tester's form reaches the proxy's root endpoint unchanged. */
  lemma LoadTestFormCallsRoot(h: Proxy.Handler, base: string)
    ensures Proxy.PlanCall(h, base, LoadTestForm).url == base + "/"
  {
    var e := Proxy.FormEndpoint(LoadTestForm);
    assert e == "/";
    assert StartsWith(e, "/") by {
      assert e[..1] == e;
    }
    assert Proxy.Normalize(e) == e;
  }

  /**
   Through the proxy, the load tester counts a request as successful
   exactly when the downstream service answered at all: a downstream
   error status still reaches it as HTTP 200, while a connection failure
   or a timeout downstream reaches it as 503 or 504.
   */
  lemma ProxiedSuccessMeansDownstreamAnswered(id: int, h: Proxy.Handler, base: string,
                                              downstream: Proxy.DownstreamRequest -> Proxy.Downstream,
                                              requestStart: real, requestEnd: real, runStart: real)
    ensures var reply := Proxy.Handle(h, base, LoadTestForm, downstream);
            var rec := MakeRecord(id, Responded(reply.httpStatus), requestStart, requestEnd, runStart);
            rec.Some? &&
            (rec.value.success <==> downstream(Proxy.PlanCall(h, base, LoadTestForm)).Received?)
  {
  }
}

=== FILE: summary.dfy ===
/**
 The aggregation of `print_summary` (utility_scripts/load_test.py): the
 collected records are sorted by id and split into successful and failed
 ones; the report gives the counts, the success rate in percent, and,
 when some request succeeded, the minimum, maximum and mean duration of
 the successful requests and those slower than five seconds.

 The records arrive in completion order, which the model leaves arbitrary.
 */
module Summary {
  import opened Basics
  import opened Records

  /** Successful requests slower than this many seconds are reported as slow. */
  const SlowThreshold: real := 5.0

  /** Duration statistics over the successful records. */
  datatype Times = Times(minDuration: real, maxDuration: real, avgDuration: real, slow: seq<Record>)

  /** The summary's figures. `times` is absent when no request succeeded. */
  datatype Report = Report(
    ordered: seq<Record>,
    successful: seq<Record>,
    failed: seq<Record>,
    sent: nat,
    successRate: real,
    times: Option<Times>)

  ghost predicate SortedById(s: seq<Record>) {
    forall i, j :: 0 <= i < j < |s| ==> s[i].id <= s[j].id
  }

  ghost predicate DistinctIds(s: seq<Record>) {
    forall i, j :: 0 <= i < j < |s| ==> s[i].id != s[j].id
  }

  // ---------------------------------------------------------------------
  // Sorting by id

  /** Inserts `r` into `s` before the first record whose id is not smaller. */
  function InsertById(r: Record, s: seq<Record>): (t: seq<Record>)
    ensures multiset(t) == multiset(s) + multiset{r}
    ensures |t| == |s| + 1
    ensures forall x :: x in t ==> x == r || x in s
  {
    if |s| == 0 || r.id <= s[0].id then [r] + s
    else
      var rest := InsertById(r, s[1..]);
      assert s == [s[0]] + s[1..];
      [s[0]] + rest
  }

  /** Inserting into a sorted sequence keeps it sorted. */
  lemma {:induction false} InsertKeepsSorted(r: Record, s: seq<Record>)
    requires SortedById(s)
    ensures SortedById(InsertById(r, s))
  {
    if |s| == 0 || r.id <= s[0].id {
      var t := [r] + s;
      forall i, j | 0 <= i < j < |t|
        ensures t[i].id <= t[j].id
      {
        if i > 0 {
          assert t[i] == s[i - 1] && t[j] == s[j - 1];
        } else {
          assert t[j] == s[j - 1];
        }
      }
    } else {
      var rest := InsertById(r, s[1..]);
      assert SortedById(s[1..]);
      InsertKeepsSorted(r, s[1..]);
      var t := [s[0]] + rest;
      forall k | 0 <= k < |rest|
        ensures s[0].id <= rest[k].id
      {
        assert rest[k] in rest;
        if rest[k] != r {
          var m :| 0 <= m < |s[1..]| && s[1..][m] == rest[k];
          assert s[m + 1] == rest[k];
        }
      }
      forall i, j | 0 <= i < j < |t|
        ensures t[i].id <= t[j].id
      {
        assert t[j] == rest[j - 1];
        if i > 0 {
          assert t[i] == rest[i - 1];
        }
      }
    }
  }

  /** `results.sort(key=lambda x: x['id'])`, as an insertion sort. */
  function SortById(s: seq<Record>): (t: seq<Record>)
    ensures SortedById(t)
    ensures multiset(t) == multiset(s)
    ensures |t| == |s|
  {
    if |s| == 0 then []
    else
      assert s == [s[0]] + s[1..];
      var rest := SortById(s[1..]);
      InsertKeepsSorted(s[0], rest);
      InsertById(s[0], rest)
  }

  /** Two sequences with the same multiset hold the same records. */
  lemma SameElements(a: seq<Record>, b: seq<Record>)
    requires multiset(a) == multiset(b)
    ensures forall x :: x in a <==> x in b
  {
    assert forall x :: x in a <==> x in multiset(a);
    assert forall x :: x in b <==> x in multiset(b);
  }

  /** Sorted orderings of the same records with distinct ids start with the same record. */
  lemma SortedHeadsAgree(a: seq<Record>, b: seq<Record>)
    requires SortedById(a) && SortedById(b)
    requires multiset(a) == multiset(b)
    requires DistinctIds(a)
    requires |a| > 0 && |b| > 0
    ensures a[0] == b[0]
  {
    SameElements(a, b);
    assert a[0] in b;
    var j :| 0 <= j < |b| && b[j] == a[0];
    assert b[0] in a;
    var k :| 0 <= k < |a| && a[k] == b[0];
    assert b[0].id <= b[j].id;
    assert a[0].id <= a[k].id;
    assert k == 0;
  }

  /** Removing the same first record from two sequences with equal multisets leaves equal multisets. */
  lemma TailsSameMultiset(a: seq<Record>, b: seq<Record>)
    requires multiset(a) == multiset(b)
    requires |a| > 0 && |b| > 0 && a[0] == b[0]
    ensures multiset(a[1..]) == multiset(b[1..])
  {
    assert a == [a[0]] + a[1..];
    assert b == [b[0]] + b[1..];
    assert multiset(a[1..]) == multiset(a) - multiset{a[0]};
    assert multiset(b[1..]) == multiset(b) - multiset{b[0]};
  }

  /**
   Two orders of the same records with distinct ids sort to the same
   sequence: the sorted order does not depend on completion order.
   */
  lemma {:induction false} SortedPermutationUnique(a: seq<Record>, b: seq<Record>)
    requires SortedById(a) && SortedById(b)
    requires multiset(a) == multiset(b)
    requires DistinctIds(a)
    ensures a == b
  {
    assert |a| == |multiset(a)| == |multiset(b)| == |b|;
    if |a| > 0 {
      SortedHeadsAgree(a, b);
      TailsSameMultiset(a, b);
      var a', b' := a[1..], b[1..];
      assert SortedById(a') && SortedById(b') && DistinctIds(a');
      SortedPermutationUnique(a', b');
      assert a == [a[0]] + a';
      assert b == [b[0]] + b';
    }
  }

  // ---------------------------------------------------------------------
  // Splitting

  function SuccessfulOf(s: seq<Record>): (t: seq<Record>)
    ensures forall x :: x in t <==> x in s && x.success
  {
    if |s| == 0 then []
    else if s[0].success then [s[0]] + SuccessfulOf(s[1..])
    else SuccessfulOf(s[1..])
  }

  function FailedOf(s: seq<Record>): (t: seq<Record>)
    ensures forall x :: x in t <==> x in s && !x.success
  {
    if |s| == 0 then []
    else if !s[0].success then [s[0]] + FailedOf(s[1..])
    else FailedOf(s[1..])
  }

  /** The successful and failed records partition the collected ones. */
  lemma {:induction false} SplitPartitions(s: seq<Record>)
    ensures multiset(SuccessfulOf(s)) + multiset(FailedOf(s)) == multiset(s)
    ensures |SuccessfulOf(s)| + |FailedOf(s)| == |s|
  {
    if |s| > 0 {
      SplitPartitions(s[1..]);
      assert s == [s[0]] + s[1..];
    }
  }

  /** `len(successful)/len(results)*100`; the caller has ruled out an empty run. */
  function SuccessRate(successful: nat, total: nat): (rate: real)
    requires 0 < total && successful <= total
    ensures 0.0 <= rate <= 100.0
    ensures rate == 100.0 <==> successful == total
    ensures rate == 0.0 <==> successful == 0
    ensures rate * (total as real) == 100.0 * (successful as real)
  {
    (successful as real) / (total as real) * 100.0
  }

  // ---------------------------------------------------------------------
  // Duration statistics

  /** The `duration` of each record, in the records' order. */
  function Durations(s: seq<Record>): (d: seq<real>)
    ensures |d| == |s|
    ensures forall i :: 0 <= i < |s| ==> d[i] == s[i].duration
  {
    if |s| == 0 then [] else [s[0].duration] + Durations(s[1..])
  }

  function Sum(d: seq<real>): real {
    if |d| == 0 then 0.0 else d[0] + Sum(d[1..])
  }

  /** Python's `min` over a non-empty list. */
  function MinOf(d: seq<real>): (m: real)
    requires |d| > 0
    ensures m in d
    ensures forall x :: x in d ==> m <= x
  {
    if |d| == 1 then d[0]
    else
      var rest := MinOf(d[1..]);
      assert d == [d[0]] + d[1..];
      if d[0] <= rest then d[0] else rest
  }

  /** Python's `max` over a non-empty list. */
  function MaxOf(d: seq<real>): (m: real)
    requires |d| > 0
    ensures m in d
    ensures forall x :: x in d ==> x <= m
  {
    if |d| == 1 then d[0]
    else
      var rest := MaxOf(d[1..]);
      assert d == [d[0]] + d[1..];
      if d[0] >= rest then d[0] else rest
  }

  /** Each term bounded by `lo` and `hi` bounds the sum by `n * lo` and `n * hi`. */
  lemma {:induction false} SumBounds(d: seq<real>, lo: real, hi: real)
    requires forall i :: 0 <= i < |d| ==> lo <= d[i] <= hi
    ensures (|d| as real) * lo <= Sum(d) <= (|d| as real) * hi
  {
    if |d| > 0 {
      var rest := d[1..];
      assert forall i :: 0 <= i < |rest| ==> rest[i] == d[i + 1];
      SumBounds(rest, lo, hi);
      var m := |rest| as real;
      assert Sum(d) == d[0] + Sum(rest);
      assert (|d| as real) * lo == m * lo + lo;
      assert (|d| as real) * hi == m * hi + hi;
    }
  }

  /** Mean of a non-empty list: the value that, taken `len(d)` times, adds up to `sum(d)`. */
  function Mean(d: seq<real>): (avg: real)
    requires |d| > 0
    ensures avg * (|d| as real) == Sum(d)
  {
    Sum(d) / (|d| as real)
  }

  /** The mean lies between the minimum and the maximum. */
  lemma {:induction false} MeanWithinRange(d: seq<real>)
    requires |d| > 0
    ensures MinOf(d) <= Mean(d)
    ensures Mean(d) <= MaxOf(d)
  {
    var lo, hi, total, n := MinOf(d), MaxOf(d), Sum(d), |d| as real;
    WithinExtremes(d);
    SumBounds(d, lo, hi);
    QuotientBetween(total, n, lo, hi);
  }

  lemma WithinExtremes(d: seq<real>)
    requires |d| > 0
    ensures forall i :: 0 <= i < |d| ==> MinOf(d) <= d[i] <= MaxOf(d)
  {
    assert forall i :: 0 <= i < |d| ==> d[i] in d;
  }

  lemma QuotientBetween(total: real, n: real, lo: real, hi: real)
    requires n > 0.0 && n * lo <= total <= n * hi
    ensures lo <= total / n <= hi
  {
    var q := total / n;
    assert q * n == total;
    assert (q - lo) * n == total - n * lo;
    assert (hi - q) * n == n * hi - total;
  }

  /**
   Successful records slower than the threshold, in order: each slow record
   as often as it occurs in `s`, and nothing else.
   */
  function SlowOf(s: seq<Record>): (t: seq<Record>)
    ensures forall x :: x in t <==> x in s && x.duration > SlowThreshold
    ensures forall x :: multiset(t)[x] == if x.duration > SlowThreshold then multiset(s)[x] else 0
  {
    if |s| == 0 then []
    else
      assert s == [s[0]] + s[1..];
      if s[0].duration > SlowThreshold then [s[0]] + SlowOf(s[1..]) else SlowOf(s[1..])
  }

  /** Statistics over a non-empty list of successful records. */
  function TimesOf(successful: seq<Record>): (t: Times)
    requires |successful| > 0
    ensures t.minDuration <= t.avgDuration <= t.maxDuration
    ensures forall r :: r in successful ==> t.minDuration <= r.duration <= t.maxDuration
    ensures exists i :: 0 <= i < |successful| && successful[i].duration == t.minDuration
    ensures exists i :: 0 <= i < |successful| && successful[i].duration == t.maxDuration
    ensures forall r :: r in t.slow <==> r in successful && r.duration > SlowThreshold
    ensures t.avgDuration == Mean(Durations(successful))
    ensures t.slow == SlowOf(successful)
  {
    var d := Durations(successful);
    var t := Times(MinOf(d), MaxOf(d), Mean(d), SlowOf(successful));
    MeanWithinRange(d);
    forall r | r in successful
      ensures t.minDuration <= r.duration <= t.maxDuration
    {
      var i :| 0 <= i < |successful| && successful[i] == r;
      assert d[i] in d;
    }
    assert MinOf(d) in d;
    assert MaxOf(d) in d;
    t
  }

  // ---------------------------------------------------------------------
  // The whole summary

  /** The summary of the collected records; none for an empty collection. */
  function Summarize(collected: seq<Record>): (r: Option<Report>)
    ensures r.None? <==> |collected| == 0
    ensures r.Some? ==> SortedById(r.value.ordered) && multiset(r.value.ordered) == multiset(collected)
    ensures r.Some? ==> r.value.sent == |collected|
                        && |r.value.successful| + |r.value.failed| == |collected|
                        && 0.0 <= r.value.successRate <= 100.0
    ensures r.Some? ==> (forall x :: x in r.value.successful <==> x in collected && x.success)
                        && (forall x :: x in r.value.failed <==> x in collected && !x.success)
    ensures r.Some? ==> (r.value.times.Some? <==> exists x :: x in collected && x.success)
    ensures r.Some? && r.value.times.Some? ==>
              var t := r.value.times.value;
              && t.minDuration <= t.avgDuration <= t.maxDuration
              && (forall x :: x in t.slow <==> x in collected && x.success && x.duration > SlowThreshold)
    ensures r.Some? ==> multiset(r.value.successful) + multiset(r.value.failed) == multiset(collected)
    ensures r.Some? ==> r.value.successRate == SuccessRate(|r.value.successful|, |collected|)
    ensures r.Some? && r.value.times.Some? ==> r.value.times.value == TimesOf(r.value.successful)
  {
    if |collected| == 0 then None
    else
      var ordered := SortById(collected);
      SameElements(ordered, collected);
      var successful := SuccessfulOf(ordered);
      var failed := FailedOf(ordered);
      SplitPartitions(ordered);
      var rate := SuccessRate(|successful|, |ordered|);
      var times := if |successful| > 0 then Some(TimesOf(successful)) else None;
      assert times.Some? <==> exists x :: x in collected && x.success by {
        if exists x :: x in collected && x.success {
          var x :| x in collected && x.success;
          assert x in successful;
        }
      }
      Some(Report(ordered, successful, failed, |collected|, rate, times))
  }

  /** Every request succeeded exactly when the rate is 100, and none exactly when it is 0. */
  lemma SuccessRateExtremes(collected: seq<Record>)
    requires |collected| > 0
    ensures Summarize(collected).value.successRate == 100.0 <==> forall x :: x in collected ==> x.success
    ensures Summarize(collected).value.successRate == 0.0 <==> forall x :: x in collected ==> !x.success
  {
    var ordered := SortById(collected);
    SplitPartitions(ordered);
    SameElements(ordered, collected);
    var successful, failed := SuccessfulOf(ordered), FailedOf(ordered);
    if |failed| > 0 {
      assert failed[0] in failed;
    }
    if |successful| > 0 {
      assert successful[0] in successful;
    }
  }

  /**
   With distinct ids the whole summary is independent of the order in
   which requests completed.
   */
  lemma SummaryIgnoresCompletionOrder(a: seq<Record>, b: seq<Record>)
    requires multiset(a) == multiset(b)
    requires DistinctIds(a)
    ensures Summarize(a) == Summarize(b)
  {
    assert |a| == |multiset(a)| == |multiset(b)| == |b|;
    if |a| > 0 {
      var sa := SortById(a);
      var sb := SortById(b);
      DistinctIdsPermutation(a, sa);
      SortedPermutationUnique(sa, sb);
    }
  }

  /** Reordering keeps ids distinct. */
  lemma DistinctIdsPermutation(a: seq<Record>, b: seq<Record>)
    requires multiset(a) == multiset(b)
    requires DistinctIds(a)
    ensures DistinctIds(b)
  {
    forall i, j | 0 <= i < j < |b|
      ensures b[i].id != b[j].id
    {
      assert b[i] in multiset(a);
      assert b[j] in multiset(a);
      var p :| 0 <= p < |a| && a[p] == b[i];
      var q :| 0 <= q < |a| && a[q] == b[j];
      assert p != q by {
        if p == q {
          PairCount(b, i, j);
          SingleCount(a, p);
          assert false;
        }
      }
    }
  }

  /** A value at two positions occurs at least twice. */
  lemma {:induction false} PairCount(s: seq<Record>, i: int, j: int)
    requires 0 <= i < j < |s| && s[i] == s[j]
    ensures multiset(s)[s[i]] >= 2
  {
    var x := s[i];
    assert s == s[..i] + [s[i]] + s[i+1..j] + [s[j]] + s[j+1..];
    assert multiset(s) == multiset(s[..i]) + multiset{x} + multiset(s[i+1..j]) + multiset{x} + multiset(s[j+1..]);
  }

  /** In a sequence with distinct ids each record occurs once. */
  lemma SingleCount(s: seq<Record>, p: int)
    requires 0 <= p < |s| && DistinctIds(s)
    ensures multiset(s)[s[p]] == 1
  {
    var x := s[p];
    assert s == s[..p] + [x] + s[p+1..];
    forall k | 0 <= k < p
      ensures s[..p][k] != x
    {
      assert s[k].id != s[p].id;
    }
    forall k | p < k < |s|
      ensures s[k] != x
    {
      assert s[k].id != s[p].id;
    }
    assert x !in s[..p];
    assert x !in s[p+1..];
    assert multiset(s) == multiset(s[..p]) + multiset{x} + multiset(s[p+1..]);
  }
}
